=== FILE: README.md ===
# Sobel edge detection over NetPBM images, modelled in Dafny

This project models the computational core of a small C program. The program
reads NetPBM images and computes their Sobel edge gradient. Two pieces are
modelled:

- **Images and the grayscale conversion** (`src/netpbm.c`). There are two image
  constructors, `create_rgb_image` and `create_grayscale_image`. They build
  zero-filled grids of `uint` pixels. `rgb_to_grayscale_image` replaces every
  pixel by the truncating average `(r + g + b) / 3` of its three channels.
- **The Sobel convolution** (`src/sobel.c`). The two fixed 3x3 kernels
  `sobel_kernel_x` and `sobel_kernel_y` are swept over every pixel's 3x3
  window. Taps outside the image are skipped. The two accumulators are
  `uint`. The stored value is `(uint) sqrt(mx*mx + my*my)`. `sobel_filter_rgb`
  converts to grayscale and then filters.

Images are immutable values. `RgbImage` and `GrayImage` hold a width, a
height, a scale field and a row-major `seq<seq<_>>` grid. `Valid()` says the
grid has `height` rows of `width` cells each. Because images are values, an
operation cannot change its input.

C's `unsigned int` is modelled exactly, in module `UInt32`. Every unsigned
operation reduces its result modulo 2^32: the channel sum in the conversion,
each `pixel * weight` product, each accumulator update, the squares and their
sum. The `int` kernel weight is converted to `uint` before the multiplication,
as C's usual arithmetic conversions require. `(uint) sqrt(n)` is modelled as
the floor square root `ISqrt`. For every `n < 2^32` the correctly rounded
double square root, truncated, is that integer.

Each imperative function has two forms:

- a pure reference definition: `RgbToGrayscaleImage`, `SobelAt` and
  `FilterGrayscale`;
- a method that follows the C loops one for one: `ConvertRgbToGrayscale`,
  `Magnitudes`, `MagnitudesRow` with its loop body `MagnitudesTap`,
  `CalculateGradientAt`, `SobelFilterGrayscale` and `SobelFilterRgb`.

The methods are proved equal to the reference definitions. The lemmas then
relate the reference definitions to independent descriptions:

- the exact integer convolution;
- the convolution of the zero-padded image;
- bounds in terms of the largest intensity;
- the behaviour on uniform images;
- locality.

Files:

- `uint32.dfy`: module `UInt32`, unsigned 32-bit wrap-around.
- `isqrt.dfy`: module `IntSqrt`, the floor square root.
- `netpbm.dfy`: module `Images`, the image values, the constructors and the
  conversion.
- `sobel.dfy`: module `Sobel`, the kernels, the filter, and the properties.

### Behaviour of the code worth knowing

- **Truncation, no clamping.** The output is `(uint) sqrt(...)`: it is
  truncated, not rounded, and it is never clamped to the image's scale.
  `UniformLeftBorder` shows a pixel of value `4c` in an image whose every
  intensity is `c` (for `4c < 2^16`).
- **Uniform images.** A uniform image is guaranteed 0 only at interior
  pixels (`UniformInteriorIsZero`); a border pixel may be 0 as well, or not.
  At the left-border pixel of an interior row (`1 <= y < height - 1`) of an
  image at least 2 wide, the skipped left kernel column leaves `mx = 4c` and
  `my = 0` (`LeftBorderWeights`), so the stored value is `4c` when
  `4c < 2^16` (`UniformLeftBorder`). At a corner a kernel row is skipped as
  well: at the top-left corner both magnitudes are `3c`
  (`UniformCornerMagnitudes`); at the other corners they are `±3c`.
- **The scale field.** The definitions of `create_grayscale_image` and
  `create_rgb_image` (`src/netpbm.c:8-24`, `43-59`) take two arguments and
  never write `scale`, and neither does `rgb_to_grayscale_image`. The field
  keeps whatever `malloc` left there, which is modelled as `Scale.Unset`.
- **Wrap-around.** The accumulators wrap whenever a partial sum is
  negative, at any intensity; that loses nothing modulo 2^32
  (`WrappedIsExactModulo`). The squares are computed from those wrapped
  accumulators, so the square of a negative magnitude wraps too, at any
  intensity. When every intensity is at most 11585, the true sum of squares
  is at most `32 * 11585^2 < 2^32`, and then the `uint` squares and their
  sum wrap to exactly `mx^2`, `my^2` and `mx^2 + my^2`: nothing is lost
  (`SquareSumExact`). This is a sufficient bound, not the exact threshold.
  Up to it, which covers every 8-bit image, the output is exactly
  `isqrt(mx^2 + my^2)` (`SobelAtExact`). For every image, with no bound,
  the output is `isqrt((mx^2 + my^2) mod 2^32)` of the exact sums
  (`SobelAtModulo`). For large intensities the true sum of squares can
  reach 2^32, and then the output is no longer the Euclidean norm of the
  gradient:
  `WrapAboveExactLimit` exhibits this for the legal 16-bit graymap row
  `0 65535`, where the true magnitude is 131070 and the stored value is
  65531.

### Inconsistencies between the source files

The source files disagree with each other in two places. The model follows
the definitions in `src/netpbm.c` and `src/sobel.c`.

- `src/sobel.c:31` calls `create_grayscale_image` with three arguments, the
  third being `image->scale`. The prototype at `src/netpbm.h:59` agrees with
  that call. The definition at `src/netpbm.c:43` takes two arguments and sets
  no scale.
- `src/sobel.c:16` and `src/sobel.c:29` define `sobel_filter_rgb` and
  `sobel_filter_grayscale` with one argument. `src/sobel.h:36-37` declares
  them with a second `threads` argument.

## Model

| member | source | states |
|---|---|---|
| UInt32.U32 | src/sobel.c:36-37 | conversion to `uint` leaves values in `[0, 2^32)` unchanged and never increases a non-negative value |
| UInt32.WrapQuotient | src/sobel.c:50-51 | a wrapped value differs from the original by a multiple of 2^32 |
| UInt32.AddWrapped | src/sobel.c:50-51 | wrapping the operands of an addition before adding does not change the wrapped sum |
| UInt32.MulWrapped | src/sobel.c:50-51 | wrapping the `uint` operand of a product does not change the wrapped product |
| UInt32.SquareWrapped | src/sobel.c:56 | the `uint` square of a wrapped value is the true square modulo 2^32 |
| IntSqrt.ISqrt | src/sobel.c:56 | the result `r` is the floor square root: `r*r <= n < (r+1)*(r+1)` |
| IntSqrt.ISqrtUnique | src/sobel.c:56 | any `r` that brackets `n` between `r*r` and `(r+1)*(r+1)` is `ISqrt(n)` |
| IntSqrt.ISqrtMonotone | src/sobel.c:56 | a larger argument never has a smaller root |
| IntSqrt.ISqrtBelow | src/sobel.c:56 | an argument below `s*s` has a root below `s` |
| IntSqrt.ISqrtGreatest | src/sobel.c:56 | every `v` with `v*v <= n` is at most `ISqrt(n)` |
| IntSqrt.ISqrtOfSquare | src/sobel.c:56 | the root of `r*r` is `r` |
| Images.CreateRgbImage | src/netpbm.c:8-24 | the image is well formed with the given width and height, the scale is not set, and every channel of every pixel is 0 |
| Images.CreateGrayscaleImage | src/netpbm.c:43-59 | the image is well formed with the given width and height, the scale is not set, and every intensity is 0 |
| Images.Average | src/netpbm.c:84 | when `r+g+b` does not wrap the result is `(r+g+b)/3`; in every case three times the result is at most the sum, and the result is at most one of the channels |
| Images.RgbToGrayscaleImage | src/netpbm.c:79-90 | the output has the input's width and height, an unset scale, and each pixel is the average of the input pixel at the same position |
| Images.ConvertRgbToGrayscale | src/netpbm.c:79-90 | the loop-for-loop conversion yields the same shape, the average at every position, and exactly the reference image `RgbToGrayscaleImage` |
| Images.GrayscaleWithinScale | src/netpbm.c:84 | if no input channel exceeds `s`, no output intensity exceeds `s` |
| Images.UniformConversion | tests/netpbm_test.c:5-12 | an image uniformly `{50, 0, 250}` converts to one uniformly 100 |
| Sobel.KernelXTaps | src/sobel.c:4-6 | the nine weights of `sobel_kernel_x` in row-major tap order |
| Sobel.KernelYTaps | src/sobel.c:8-10 | the nine weights of `sobel_kernel_y` in row-major tap order |
| Sobel.KernelYIsTransposeOfX | src/sobel.c:4-10 | `sobel_kernel_y[a][b] == sobel_kernel_x[b][a]` for all `a`, `b` |
| Sobel.KernelXWeights | src/sobel.c:4-6 | the weights of `sobel_kernel_x` sum to 0, its positive weights to 4 and the magnitudes of its negative weights to 4 |
| Sobel.KernelYWeights | src/sobel.c:8-10 | the weights of `sobel_kernel_y` sum to 0, its positive weights to 4 and the magnitudes of its negative weights to 4 |
| Sobel.Accumulate | src/sobel.c:50-51 | the defining function for `magnitude += pixel * weight` in `uint`, with the weight converted to `uint` and the product and the sum wrapping; what it means is stated by Sobel.AccumulateIsExactModulo, Sobel.WrappedPrefixStep and Sobel.WrappedIsExactModulo |
| Sobel.AccumulateIsExactModulo | src/sobel.c:50-51 | one `uint` accumulation step equals the exact update `acc + pixel * weight` reduced modulo 2^32, negative weights included |
| Sobel.AccumulateTracksExact | src/sobel.c:50-51 | if the accumulator holds an exact sum reduced modulo 2^32, it still does after one more `magnitude += pixel * weight` |
| Sobel.WrappedPrefix | src/sobel.c:36-53 | the defining function for the accumulator after the first `t` taps, as the loops compute it; its meaning is fixed by Sobel.WrappedPrefixStep (one loop step) and Sobel.WrappedIsExactModulo (the exact sum modulo 2^32) |
| Sobel.WrappedPrefixStep | src/sobel.c:40-51 | the loop step at kernel row `a`, column `b` adds `pixel * weight` in `uint` when the neighbour is inside the image and changes nothing otherwise |
| Sobel.WrappedIsExactModulo | src/sobel.c:36-51 | the wrapping `uint` accumulator always equals the exact integer sum over the in-range taps, reduced modulo 2^32 |
| Sobel.WrappedMagnitude | src/sobel.c:36-53 | the defining function for `magnitude_x` / `magnitude_y` after both kernel loops; its meaning is stated by Sobel.WrappedMagnitudeIsExactModulo |
| Sobel.WrappedMagnitudeIsExactModulo | src/sobel.c:36-53 | each magnitude the loops leave is the exact in-range kernel sum reduced modulo 2^32 |
| Sobel.SquareSum | src/sobel.c:56 | the defining function for `magnitude_x*magnitude_x + magnitude_y*magnitude_y` in `uint`; its meaning is stated by Sobel.SquareSumModulo and Sobel.SquareSumExact |
| Sobel.GradientAt | src/sobel.c:56 | the stored value always fits in 16 bits, because the argument of the square root is a `uint` |
| Sobel.SobelAt | src/sobel.c:33-56 | every output pixel is below 2^16 |
| Sobel.FilterGrayscale | src/sobel.c:29-61 | the result has the source's width and height, an unset scale, and the Sobel value at every position |
| Sobel.Magnitudes | src/sobel.c:36-53 | the two nested kernel loops leave `magnitude_x` and `magnitude_y` equal to the wrapped sums over all nine taps |
| Sobel.MagnitudesRow | src/sobel.c:41-52 | the innermost loop advances both accumulators by the three taps of kernel row `a` |
| Sobel.MagnitudesTap | src/sobel.c:42-51 | one pass of the innermost loop body leaves both accumulators unchanged when the neighbour is outside the image, and otherwise advances each by one tap |
| Sobel.CalculateGradientAt | src/sobel.c:36-56 | the body of the two outer loops computes the Sobel value of pixel (x, y) |
| Sobel.SobelFilterGrayscale | src/sobel.c:29-61 | the loop-for-loop filter has the source's shape, holds the Sobel value at every position, and equals the reference image `FilterGrayscale` |
| Sobel.SobelFilterRgb | src/sobel.c:16-23 | filtering an RGB image equals filtering its grayscale conversion |
| Sobel.SkipEqualsZeroPadding | src/sobel.c:42-51 | skipping out-of-range taps computes the same sum as convolving the image zero-padded by one pixel on every side |
| Sobel.ExactEqualsPadded | src/sobel.c:42-51 | over any grid whose window taps contribute the same terms as the image's, the exact sum of the first `t` taps equals the grid convolution of those taps |
| Sobel.PaddedTap | src/sobel.c:45-47 | the padded pixel under a tap is the source pixel when the tap is in range and 0 otherwise |
| Sobel.PaddedTerm | src/sobel.c:45-51 | the term a tap contributes equals the zero-padded pixel times the tap's weight, so a skipped tap contributes 0 |
| Sobel.ExactPrefixBounds | src/sobel.c:40-51 | with intensities in `[0, m]`, the exact sum lies between `-m` times the magnitudes of the negative weights and `m` times the positive weights seen so far |
| Sobel.MagnitudeBounds | src/sobel.c:40-51 | with intensities at most `m`, both exact magnitudes lie within `[-4m, 4m]` |
| Sobel.SquareSumExact | src/sobel.c:56 | when the true sum of squares is below 2^32, the `uint` squares of the wrapped magnitudes and their `uint` sum are exact |
| Sobel.GradientAtExact | src/sobel.c:36-56 | for any kernels, when the exact magnitudes' squares sum below 2^32, the pixel is `isqrt(mx^2 + my^2)` of the exact magnitudes |
| Sobel.SquareSumModulo | src/sobel.c:56 | the `uint` sum of squares of two wrapped integers is their true sum of squares reduced modulo 2^32 |
| Sobel.GradientAtModulo | src/sobel.c:36-56 | for any kernels and any intensities, the pixel is `isqrt((ex^2 + ey^2) mod 2^32)` of the exact in-range kernel sums `ex`, `ey` |
| Sobel.SobelAtModulo | src/sobel.c:36-56 | the closed form of every Sobel pixel, with no bound on the intensities: `isqrt((mx^2 + my^2) mod 2^32)` of the exact in-range sums of `sobel_kernel_x` and `sobel_kernel_y` |
| Sobel.SobelAtOfMagnitudes | src/sobel.c:36-56 | at a pixel whose exact magnitudes are `ex` and `ey`, the stored value is `isqrt((ex^2 + ey^2) mod 2^32)` |
| Sobel.GradientAtWithin | src/sobel.c:36-56 | for magnitudes within `4m` and `m <= 11585`, the pixel is the exact truncated norm and its square is at most `32 m^2` |
| Sobel.SobelAtExact | src/sobel.c:36-56 | with intensities at most 11585, the pixel is `isqrt(mx^2 + my^2)` of the exact in-range kernel sums: truncated and not clamped |
| Sobel.FilterGrayscaleExact | src/sobel.c:29-61 | with intensities at most 11585, every pixel of the filtered image is the truncated norm of the exact magnitudes |
| Sobel.SobelAtBounded | src/sobel.c:40-56 | with intensities at most `m`, the square of every output pixel is at most `32 m^2`, whether or not the arithmetic wraps |
| Sobel.SobelAtRootBound | src/sobel.c:40-56 | with intensities at most `m`, every output pixel is at most `isqrt(32 m^2)` |
| Sobel.WideBound | src/sobel.c:56 | once `m > 11585`, the square of the root of any `uint` is at most `32 m^2` |
| Sobel.WrappedRootBound | src/sobel.c:56 | once `m > 11585`, the root of any sum of squares reduced modulo 2^32 has a square at most `32 m^2` |
| Sobel.UniformPrefix | src/sobel.c:40-51 | on a uniform image of intensity `c`, the exact sum is `c` times the total weight of the in-range taps |
| Sobel.UniformTerm | src/sobel.c:44-51 | on a uniform image of intensity `c`, a tap contributes `c` times its weight when it is in range and nothing when it is skipped |
| Sobel.InteriorWeights | src/sobel.c:45-47 | around an interior pixel no tap is skipped |
| Sobel.UniformInteriorMagnitude | src/sobel.c:40-51 | on a uniform image, a kernel whose weights sum to 0 has exact magnitude 0 at every interior pixel |
| Sobel.UniformInteriorIsZero | src/sobel.c:40-56 | a uniform image has gradient 0 at every interior pixel |
| Sobel.LeftBorderWeights | src/sobel.c:45-47 | at x = 0 of an interior row (`1 <= y < height - 1`) of an image at least 2 wide, the in-range weights of `sobel_kernel_x` sum to 4 and those of `sobel_kernel_y` to 0 |
| Sobel.UniformLeftBorder | src/sobel.c:40-56 | at x = 0 of an interior row (`1 <= y < height - 1`) of a uniform image of intensity `c` at least 2 wide, with `4c < 2^16`, the gradient is `4c`, which is not 0 when `c > 0` |
| Sobel.CornerWeights | src/sobel.c:45-47 | at the top-left corner of an image at least 2 by 2, a kernel row and a kernel column are skipped and the in-range weights of both kernels sum to 3 |
| Sobel.UniformCornerMagnitudes | src/sobel.c:40-51 | on a uniform image of intensity `c` at least 2 by 2, both exact magnitudes at the top-left corner are `3c` |
| Sobel.GradientOfAxisMagnitude | src/sobel.c:56 | for any kernels, an `x` magnitude `v < 2^16` with a `y` magnitude of 0 gives the pixel value `v` exactly |
| Sobel.WrappedPrefixLocal | src/sobel.c:40-51 | two images that agree on the 3x3 neighbourhood of (x, y) give the same accumulator after every tap |
| Sobel.Locality | src/sobel.c:40-56 | the output at (x, y) depends only on source pixels at most one row and one column away |
| Sobel.PairMagnitude | src/sobel.c:40-51 | on the 1x2 image `0 65535`, any kernel's exact magnitude at (0, 0) is 65535 times its centre-right weight |
| Sobel.WrapAboveExactLimit | src/sobel.c:56 | on the 1x2 image `0 65535` the exact horizontal magnitude is 131070, but the stored value is 65531 because the square wraps |
| Sobel.WrappedRootOfPair | src/sobel.c:56 | `131070^2` wraps to 4294443012 in `uint`, and the floor root of that is 65531 |

## Left out

- File input and output: `open_rgb_image`, `read_header`, `skip_comment`, the
  `parse_*_body_*` readers and the `write_*_image` writers
  (`src/netpbm.h:65-80`). Their bodies are not part of this model. They are
  I/O, and the filter takes and returns in-memory images.
- Multithreaded partitioning: `sobel_thread_task`,
  `sobel_filter_grayscale_thread_job` and `calculate_sobel_at`
  (`src/sobel.h:19-33`). No implementation of them is part of this model, and
  `sobel_filter_grayscale` as written is sequential. `CalculateGradientAt`
  models the per-pixel body of the sequential loops, not the declared
  `calculate_sobel_at`.
- `free_rgb_image`, `free_grayscale_image`, and the `malloc`/`calloc`
  lifecycle. Images are values, so there is nothing to free. A failed
  allocation is not modelled, because the C code does not check for one.
- `main.c`: argument handling, timing with `gettimeofday` and floating point,
  and printing. These are command-line plumbing.
- `test_file_parsing` (`tests/netpbm_test.c:20-22`). It only reads a file from
  disk.
- The `int` loop counters: `i` in the constructors and `y`, `x` in the filter.
  They are compared with `uint` dimensions. Dimensions above 2^31 - 1 would
  overflow them, which is undefined behaviour in C. The model's loops run over
  the full `uint` range instead.
- Double-precision `sqrt`. It is replaced by the exact floor square root, which
  agrees with the truncated double result for every argument below 2^32. That
  is the only range the `uint` argument can take.
- Images.Average: the channel sum is not restricted by a precondition.
  Wrap-around is modelled, and the exact `(r+g+b)/3` is promised only when the
  sum is below 2^32.
- Sobel.UniformLeftBorder: requires `4c < 2^16`. Above that the `uint`
  squares wrap and the value is in general not `4c`.

=== FILE: isqrt.dfy ===
/** Integer square root. `(uint) sqrt(n)` in C converts `n` to double, takes
    the correctly rounded square root and truncates it; for every `n < 2^32`
    that is exactly the floor square root defined here. */
module IntSqrt {

  /** The largest `r` with `r * r <= n`, computed digit pair by digit pair. */
  function ISqrt(n: nat): (r: nat)
    ensures r * r <= n < (r + 1) * (r + 1)
    decreases n
  {
    if n == 0 then 0
    else
      var half := ISqrt(n / 4);
      var s := 2 * half;
      DoubledRoot(n, half);
      if (s + 1) * (s + 1) <= n then
        RootStep(n, s);
        s + 1
      else s
  }

  /** Twice the root of `n / 4` brackets `n` within two steps. */
  lemma DoubledRoot(n: nat, half: nat)
    requires half * half <= n / 4 < (half + 1) * (half + 1)
    ensures (2 * half) * (2 * half) <= n < (2 * half + 2) * (2 * half + 2)
  {
    var q := n / 4;
    assert 4 * q <= n < 4 * q + 4;
    assert (2 * half) * (2 * half) == 4 * (half * half);
    assert (2 * half + 2) * (2 * half + 2) == 4 * ((half + 1) * (half + 1));
  }

  /** If `s + 1` still fits below `n`, it is the root. */
  lemma RootStep(n: nat, s: nat)
    requires (s + 1) * (s + 1) <= n < (s + 2) * (s + 2)
    ensures var r := s + 1; r * r <= n < (r + 1) * (r + 1)
  {
  }

  lemma SquareNonNegative(e: int)
    ensures e * e >= 0
  {
    if e < 0 {
      assert e * e == (-e) * (-e);
    }
  }

  lemma SquareMonotone(a: nat, b: nat)
    requires a <= b
    ensures a * a <= b * b
  {
    assert a * a <= a * b <= b * b;
  }

  /** The floor square root is the only `r` bracketing `n` between two squares. */
  lemma ISqrtUnique(n: nat, r: nat)
    requires r * r <= n < (r + 1) * (r + 1)
    ensures ISqrt(n) == r
  {
    var s := ISqrt(n);
    SquareOrdersRoots(s, r + 1);
    SquareOrdersRoots(r, s + 1);
  }

  /** A larger argument never has a smaller root. */
  lemma ISqrtMonotone(a: nat, b: nat)
    requires a <= b
    ensures ISqrt(a) <= ISqrt(b)
  {
    SquareOrdersRoots(ISqrt(a), ISqrt(b) + 1);
  }

  /** A number below `s * s` has a root below `s`. */
  lemma ISqrtBelow(n: nat, s: nat)
    requires n < s * s
    ensures ISqrt(n) < s
  {
    SquareOrdersRoots(ISqrt(n), s);
  }

  /** Any `v` whose square does not exceed `n` is at most the root of `n`. */
  lemma ISqrtGreatest(n: nat, v: nat)
    requires v * v <= n
    ensures v <= ISqrt(n)
  {
    var r := ISqrt(n);
    SquareOrdersRoots(v, r + 1);
  }

  /** Squares of naturals are ordered like the naturals themselves. */
  lemma SquareOrdersRoots(a: nat, b: nat)
    requires a * a < b * b
    ensures a < b
  {
    if b <= a {
      SquareMonotone(b, a);
    }
  }

  /** The root of a perfect square is its base. */
  lemma ISqrtOfSquare(r: nat)
    ensures ISqrt(r * r) == r
  {
    ISqrtUnique(r * r, r);
  }
}

=== FILE: netpbm.dfy ===
/** Image values and the RGB to grayscale conversion of `src/netpbm.c`.
    An image is an immutable value: dimensions, a scale field and a
    row-major grid of `height` rows of `width` pixels each. */
module Images {
  import opened UInt32

  /** One pixel of an RGB image: three `uint` channels. */
  datatype Rgb = Rgb(r: uint32, g: uint32, b: uint32)

  /** What `calloc` leaves in a fresh pixel. */
  const BLACK: Rgb := Rgb(0, 0, 0)

  /** The scale (maximum intensity) field. The constructors and the
      converter never write it, so it holds whatever `malloc` left there. */
  datatype Scale = Unset | Set(value: uint32)

  /** `m` has `height` rows of `width` cells each. */
  predicate IsGrid<T>(m: seq<seq<T>>, width: nat, height: nat)
  {
    |m| == height && forall y :: 0 <= y < |m| ==> |m[y]| == width
  }

  datatype RgbImage = RgbImage(width: uint32, height: uint32, scale: Scale, matrix: seq<seq<Rgb>>)
  {
    predicate Valid()
    {
      IsGrid(matrix, width, height)
    }
  }

  datatype GrayImage = GrayImage(width: uint32, height: uint32, scale: Scale, matrix: seq<seq<uint32>>)
  {
    predicate Valid()
    {
      IsGrid(matrix, width, height)
    }
  }

  /** `create_rgb_image`: a `height` by `width` image whose every channel is 0. */
  function CreateRgbImage(width: uint32, height: uint32): (img: RgbImage)
    ensures img.Valid() && img.width == width && img.height == height
    ensures img.scale == Unset
    ensures forall y, x :: 0 <= y < height && 0 <= x < width ==>
              img.matrix[y][x].r == 0 && img.matrix[y][x].g == 0 && img.matrix[y][x].b == 0
  {
    RgbImage(width, height, Unset, seq(height, _ => seq(width, _ => BLACK)))
  }

  /** `create_grayscale_image`: a `height` by `width` image whose every intensity is 0. */
  function CreateGrayscaleImage(width: uint32, height: uint32): (img: GrayImage)
    ensures img.Valid() && img.width == width && img.height == height
    ensures img.scale == Unset
    ensures forall y, x :: 0 <= y < height && 0 <= x < width ==> img.matrix[y][x] == 0
  {
    GrayImage(width, height, Unset, seq(height, _ => seq(width, _ => 0)))
  }

  /** The truncating average of the three channels. The sum is a `uint`
      and wraps modulo 2^32 before the division. */
  function Average(p: Rgb): (v: uint32)
    ensures p.r + p.g + p.b < MODULUS ==> v == (p.r + p.g + p.b) / 3
    ensures 3 * v <= p.r + p.g + p.b
    ensures v <= p.r || v <= p.g || v <= p.b
  {
    U32(p.r + p.g + p.b) / 3
  }

  /** Every channel of every pixel of `img` is at most `s`. */
  ghost predicate RgbBoundedBy(img: RgbImage, s: int)
    requires img.Valid()
  {
    forall y, x :: 0 <= y < img.height && 0 <= x < img.width ==>
      img.matrix[y][x].r <= s && img.matrix[y][x].g <= s && img.matrix[y][x].b <= s
  }

  /** Every intensity of `img` is at most `s`. */
  ghost predicate GrayBoundedBy(img: GrayImage, s: int)
    requires img.Valid()
  {
    forall y, x :: 0 <= y < img.height && 0 <= x < img.width ==> img.matrix[y][x] <= s
  }

  /** Reference definition of `rgb_to_grayscale_image`: a fresh image of
      the same shape whose pixel (x, y) is the average of the input's. */
  function RgbToGrayscaleImage(img: RgbImage): (g: GrayImage)
    requires img.Valid()
    ensures g.Valid() && g.width == img.width && g.height == img.height
    ensures g.scale == Unset
    ensures forall y, x :: 0 <= y < img.height && 0 <= x < img.width ==>
              g.matrix[y][x] == Average(img.matrix[y][x])
  {
    GrayImage(img.width, img.height, Unset,
              seq(img.height, y requires 0 <= y < img.height =>
                seq(img.width, x requires 0 <= x < img.width => Average(img.matrix[y][x]))))
  }

  /** `rgb_to_grayscale_image` as written: create a zero-filled image, then
      visit the rows top to bottom and each row left to right. */
  method ConvertRgbToGrayscale(img: RgbImage) returns (g: GrayImage)
    requires img.Valid()
    ensures g.Valid() && g.width == img.width && g.height == img.height
    ensures forall y, x :: 0 <= y < img.height && 0 <= x < img.width ==>
              g.matrix[y][x] == Average(img.matrix[y][x])
    ensures g == RgbToGrayscaleImage(img)
  {
    var result := CreateGrayscaleImage(img.width, img.height);
    var m := result.matrix;
    var y := 0;
    while y < img.height
      invariant 0 <= y <= img.height
      invariant IsGrid(m, img.width, img.height)
      invariant forall i, j :: 0 <= i < y && 0 <= j < img.width ==> m[i][j] == Average(img.matrix[i][j])
    {
      var x := 0;
      while x < img.width
        invariant 0 <= x <= img.width
        invariant IsGrid(m, img.width, img.height)
        invariant forall i, j :: 0 <= i < y && 0 <= j < img.width ==> m[i][j] == Average(img.matrix[i][j])
        invariant forall j :: 0 <= j < x ==> m[y][j] == Average(img.matrix[y][j])
      {
        var pixel := img.matrix[y][x];
        var average := U32(pixel.r + pixel.g + pixel.b) / 3;
        m := m[y := m[y][x := average]];
        x := x + 1;
      }
      y := y + 1;
    }
    g := result.(matrix := m);
    var reference := RgbToGrayscaleImage(img);
    assert forall i :: 0 <= i < img.height ==> m[i] == reference.matrix[i];
  }

  /** If no channel of the input exceeds `s`, no intensity of the output does. */
  lemma GrayscaleWithinScale(img: RgbImage, s: int)
    requires img.Valid()
    requires RgbBoundedBy(img, s)
    ensures GrayBoundedBy(RgbToGrayscaleImage(img), s)
  {
  }

  /** An image uniformly filled with `{50, 0, 250}` converts to one uniformly 100. */
  lemma UniformConversion(img: RgbImage)
    requires img.Valid()
    requires forall y, x :: 0 <= y < img.height && 0 <= x < img.width ==> img.matrix[y][x] == Rgb(50, 0, 250)
    ensures forall y, x :: 0 <= y < img.height && 0 <= x < img.width ==> RgbToGrayscaleImage(img).matrix[y][x] == 100
  {
  }
}

=== FILE: sobel.dfy ===
/** The Sobel gradient of `src/sobel.c`. For each pixel the two fixed 3x3
    kernels are applied to its neighbourhood; taps that fall outside the
    image are skipped. The two magnitudes are `uint` accumulators, so every
    product and every partial sum wraps modulo 2^32, and so do the squares
    and their sum; the result is the truncated square root of that sum,
    with no clamping to the image's scale.

    The nine taps of a kernel are numbered `t` in `[0, 9)`, row by row, as
    the two nested loops visit them: tap `t` is kernel row `a = t / 3` and
    kernel column `b = t % 3` (`TapRow`, `TapCol`), and it reads the source pixel at row
    `y + a - 1`, column `x + b - 1`. */
module Sobel {
  import opened UInt32
  import opened IntSqrt
  import opened Images

  /** One row of a 3x3 kernel, left to right. */
  datatype KernelRow = KernelRow(left: int, middle: int, right: int)

  /** A 3x3 kernel, top row first. */
  datatype Kernel = Kernel(top: KernelRow, center: KernelRow, bottom: KernelRow)

  /** `Entry(k, a, b)`: the weight in row `a`, column `b`. */
  function Entry(k: Kernel, a: int, b: int): int
    requires 0 <= a < 3 && 0 <= b < 3
  {
    var row := if a == 0 then k.top else if a == 1 then k.center else k.bottom;
    if b == 0 then row.left else if b == 1 then row.middle else row.right
  }

  /** `sobel_kernel_x`: horizontal gradient. */
  const KernelX: Kernel := Kernel(KernelRow(-1, 0, 1),
                                  KernelRow(-2, 0, 2),
                                  KernelRow(-1, 0, 1))

  /** `sobel_kernel_y`: vertical gradient. */
  const KernelY: Kernel := Kernel(KernelRow(-1, -2, -1),
                                  KernelRow( 0,  0,  0),
                                  KernelRow( 1,  2,  1))

  /** A sufficient intensity bound for an exact result: with every
      intensity at most 11585, the true `mx^2 + my^2 <= 32 * 11585^2 < 2^32`.
      The accumulators still wrap whenever a partial sum is negative, and so
      do the `uint` squares of such a wrapped magnitude, but modulo 2^32
      nothing is lost (`WrappedIsExactModulo`), so the `uint` squares and
      their sum come out as exactly `mx^2`, `my^2` and `mx^2 + my^2`
      (`SquareSumExact`). The bound is not tight. */
  const EXACT_LIMIT: int := 11585

  /** Kernel row of tap `t`, that is `t / 3`. */
  function TapRow(t: nat): (a: int)
    requires t < 9
    ensures 0 <= a < 3
  {
    if t < 3 then 0 else if t < 6 then 1 else 2
  }

  /** Kernel column of tap `t`, that is `t % 3`. */
  function TapCol(t: nat): (b: int)
    requires t < 9
    ensures 0 <= b < 3
  {
    if t < 3 then t else if t < 6 then t - 3 else t - 6
  }

  /** The pixel tap `t` of the window around (x, y) reads lies inside the image. */
  predicate TapInBounds(img: GrayImage, x: int, y: int, t: nat)
    requires t < 9
  {
    0 <= y + TapRow(t) - 1 < img.height && 0 <= x + TapCol(t) - 1 < img.width
  }

  /** The source pixel tap `t` of the window around (x, y) reads. */
  function TapPixel(img: GrayImage, x: int, y: int, t: nat): uint32
    requires img.Valid() && t < 9 && TapInBounds(img, x, y, t)
  {
    img.matrix[y + TapRow(t) - 1][x + TapCol(t) - 1]
  }

  /** The kernel weight of tap `t`. */
  function Weight(k: Kernel, t: nat): int
    requires t < 9
  {
    Entry(k, TapRow(t), TapCol(t))
  }

  /** The exact contribution of tap `t`: nothing when it is out of range. */
  ghost function Term(img: GrayImage, k: Kernel, x: int, y: int, t: nat): int
    requires img.Valid() && t < 9
  {
    if TapInBounds(img, x, y, t) then TapPixel(img, x, y, t) * Weight(k, t) else 0
  }

  /** Exact integer sum of the first `t` taps. */
  ghost function ExactPrefix(img: GrayImage, k: Kernel, x: int, y: int, t: nat): int
    requires img.Valid() && t <= 9
  {
    if t == 0 then 0 else ExactPrefix(img, k, x, y, t - 1) + Term(img, k, x, y, t - 1)
  }

  /** The kernel-weighted sum over the in-range neighbours, as integers. */
  ghost function ExactMagnitude(img: GrayImage, k: Kernel, x: int, y: int): int
    requires img.Valid()
  {
    ExactPrefix(img, k, x, y, 9)
  }

  /** The `uint` accumulator after the first `t` taps, exactly as the loop
      computes it: an out-of-range tap is skipped, otherwise the pixel is
      multiplied by the kernel weight converted to `uint` and added, each
      step wrapping modulo 2^32. */
  function WrappedPrefix(img: GrayImage, k: Kernel, x: int, y: int, t: nat): uint32
    requires img.Valid() && t <= 9
  {
    if t == 0 then 0
    else
      var acc := WrappedPrefix(img, k, x, y, t - 1);
      if !TapInBounds(img, x, y, t - 1) then acc
      else Accumulate(acc, TapPixel(img, x, y, t - 1), Weight(k, t - 1))
  }

  /** `magnitude += pixel * weight` in `uint`: the weight is converted to
      `uint`, and the product and the sum wrap modulo 2^32. */
  function Accumulate(acc: uint32, pixel: uint32, weight: int): uint32
  {
    U32(acc + U32(pixel * U32(weight)))
  }

  /** `magnitude_x*magnitude_x + magnitude_y*magnitude_y` in `uint`: each
      square and the sum wrap modulo 2^32. */
  function SquareSum(mx: uint32, my: uint32): uint32
  {
    U32(U32(mx * mx) + U32(my * my))
  }

  /** One `uint` accumulation step is the exact update reduced modulo 2^32,
      whatever the sign of the weight. */
  lemma AccumulateIsExactModulo(acc: uint32, pixel: uint32, weight: int)
    ensures Accumulate(acc, pixel, weight) == U32(acc + pixel * weight)
  {
    MulWrapped(pixel, weight);
    AddWrapped(acc, pixel * weight);
  }

  /** An accumulator that holds an exact sum reduced modulo 2^32 still does
      after one more step. */
  lemma AccumulateTracksExact(exact: int, pixel: uint32, weight: int)
    ensures Accumulate(U32(exact), pixel, weight) == U32(exact + pixel * weight)
  {
    AccumulateIsExactModulo(U32(exact), pixel, weight);
    AddWrapped(exact, pixel * weight);
    AddWrapped(U32(exact), pixel * weight);
  }

  /** One step of the accumulator, in terms of the kernel row `a` and
      column `b` the loops use. */
  lemma WrappedPrefixStep(img: GrayImage, k: Kernel, x: int, y: int, a: int, b: int, t: nat)
    requires img.Valid() && 0 <= a < 3 && 0 <= b < 3 && t == 3 * a + b
    ensures 0 <= y + a - 1 < img.height && 0 <= x + b - 1 < img.width ==>
              WrappedPrefix(img, k, x, y, t + 1) ==
              Accumulate(WrappedPrefix(img, k, x, y, t), img.matrix[y + a - 1][x + b - 1], Entry(k, a, b))
    ensures !(0 <= y + a - 1 < img.height && 0 <= x + b - 1 < img.width) ==>
              WrappedPrefix(img, k, x, y, t + 1) == WrappedPrefix(img, k, x, y, t)
  {
    assert TapRow(t) == a && TapCol(t) == b;
  }

  /** The wrapping accumulator always holds the exact sum reduced modulo
      2^32: skipping a tap adds nothing, and wrapping each product and each
      partial sum loses nothing modulo 2^32. */
  lemma {:induction false} WrappedIsExactModulo(img: GrayImage, k: Kernel, x: int, y: int, t: nat)
    requires img.Valid() && t <= 9
    ensures WrappedPrefix(img, k, x, y, t) == U32(ExactPrefix(img, k, x, y, t))
  {
    if t > 0 {
      WrappedIsExactModulo(img, k, x, y, t - 1);
      if TapInBounds(img, x, y, t - 1) {
        AccumulateTracksExact(ExactPrefix(img, k, x, y, t - 1), TapPixel(img, x, y, t - 1), Weight(k, t - 1));
      }
    }
  }

  /** `magnitude_x` / `magnitude_y` after the nine taps. */
  function WrappedMagnitude(img: GrayImage, k: Kernel, x: int, y: int): uint32
    requires img.Valid()
  {
    WrappedPrefix(img, k, x, y, 9)
  }

  /** Both magnitudes the loops leave are the exact in-range kernel sums
      reduced modulo 2^32. */
  lemma WrappedMagnitudeIsExactModulo(img: GrayImage, k: Kernel, x: int, y: int)
    requires img.Valid()
    ensures WrappedMagnitude(img, k, x, y) == U32(ExactMagnitude(img, k, x, y))
  {
    WrappedIsExactModulo(img, k, x, y, 9);
  }

  /** `(uint) sqrt(magnitude_x*magnitude_x + magnitude_y*magnitude_y)` with
      the squares and their sum computed in `uint`, for any pair of kernels.
      The argument of the square root is below 2^32, so the result always
      fits in 16 bits. */
  function GradientAt(img: GrayImage, kx: Kernel, ky: Kernel, x: int, y: int): (v: uint32)
    requires img.Valid()
    ensures v < 0x1_0000
  {
    var n := SquareSum(WrappedMagnitude(img, kx, x, y), WrappedMagnitude(img, ky, x, y));
    ISqrtBelow(n, 0x1_0000);
    ISqrt(n)
  }

  /** The value `sobel_filter_grayscale` stores at (x, y). */
  function SobelAt(img: GrayImage, x: int, y: int): (v: uint32)
    requires img.Valid()
    ensures v < 0x1_0000
  {
    GradientAt(img, KernelX, KernelY, x, y)
  }

  /** Reference definition of `sobel_filter_grayscale`: an image of the
      same shape whose pixel (x, y) is the Sobel value at (x, y). The result
      comes from the two-argument `create_grayscale_image`, which never
      writes the scale field. */
  function FilterGrayscale(img: GrayImage): (r: GrayImage)
    requires img.Valid()
    ensures r.Valid() && r.width == img.width && r.height == img.height
    ensures r.scale == Unset
    ensures forall y, x :: 0 <= y < img.height && 0 <= x < img.width ==> r.matrix[y][x] == SobelAt(img, x, y)
  {
    GrayImage(img.width, img.height, Unset,
              seq(img.height, y => seq(img.width, x => SobelAt(img, x, y))))
  }

  // ---------------------------------------------------------------------
  // The imperative algorithm, loop for loop.
  // ---------------------------------------------------------------------

  /** The two inner loops for one pixel (x, y): both kernels are swept
      over the 3x3 window row by row, skipping taps outside the image.
      Written for any pair of kernels; the filter passes `KernelX` and
      `KernelY`. */
  method Magnitudes(img: GrayImage, kx: Kernel, ky: Kernel, x: uint32, y: uint32)
    returns (magnitudeX: uint32, magnitudeY: uint32)
    requires img.Valid() && x < img.width && y < img.height
    ensures magnitudeX == WrappedMagnitude(img, kx, x, y)
    ensures magnitudeY == WrappedMagnitude(img, ky, x, y)
  {
    magnitudeX := 0;
    magnitudeY := 0;
    var a: int := 0;
    while a < 3
      invariant 0 <= a <= 3
      invariant magnitudeX == WrappedPrefix(img, kx, x, y, 3 * a)
      invariant magnitudeY == WrappedPrefix(img, ky, x, y, 3 * a)
    {
      magnitudeX, magnitudeY := MagnitudesRow(img, kx, ky, x, y, a, magnitudeX, magnitudeY);
      a := a + 1;
    }
  }

  /** The innermost loop: kernel row `a`, columns left to right. */
  method MagnitudesRow(img: GrayImage, kx: Kernel, ky: Kernel, x: uint32, y: uint32, a: int,
                       mx: uint32, my: uint32)
    returns (magnitudeX: uint32, magnitudeY: uint32)
    requires img.Valid() && 0 <= a < 3
    requires mx == WrappedPrefix(img, kx, x, y, 3 * a) && my == WrappedPrefix(img, ky, x, y, 3 * a)
    ensures magnitudeX == WrappedPrefix(img, kx, x, y, 3 * a + 3)
    ensures magnitudeY == WrappedPrefix(img, ky, x, y, 3 * a + 3)
  {
    magnitudeX, magnitudeY := mx, my;
    var b: int := 0;
    while b < 3
      invariant 0 <= b <= 3
      invariant magnitudeX == WrappedPrefix(img, kx, x, y, 3 * a + b)
      invariant magnitudeY == WrappedPrefix(img, ky, x, y, 3 * a + b)
    {
      magnitudeX, magnitudeY := MagnitudesTap(img, kx, ky, x, y, a, b, magnitudeX, magnitudeY);
      b := b + 1;
    }
  }

  /** The body of the innermost loop: the tap at kernel row `a`, column `b`
      is skipped when its neighbour lies outside the image, and otherwise
      added to both accumulators. */
  method MagnitudesTap(img: GrayImage, kx: Kernel, ky: Kernel, x: uint32, y: uint32, a: int, b: int,
                       mx: uint32, my: uint32)
    returns (magnitudeX: uint32, magnitudeY: uint32)
    requires img.Valid() && 0 <= a < 3 && 0 <= b < 3
    requires mx == WrappedPrefix(img, kx, x, y, 3 * a + b) && my == WrappedPrefix(img, ky, x, y, 3 * a + b)
    ensures magnitudeX == WrappedPrefix(img, kx, x, y, 3 * a + b + 1)
    ensures magnitudeY == WrappedPrefix(img, ky, x, y, 3 * a + b + 1)
  {
    WrappedPrefixStep(img, kx, x, y, a, b, 3 * a + b);
    WrappedPrefixStep(img, ky, x, y, a, b, 3 * a + b);
    magnitudeX, magnitudeY := mx, my;
    var yn: int := y + a - 1;
    var xn: int := x + b - 1;
    // a tap outside the image is skipped
    if !(yn < 0 || yn >= img.height || xn < 0 || xn >= img.width) {
      var pixel := img.matrix[yn][xn];
      magnitudeX := Accumulate(magnitudeX, pixel, Entry(kx, a, b));
      magnitudeY := Accumulate(magnitudeY, pixel, Entry(ky, a, b));
    }
  }

  /** The body of the two outer loops for one pixel, for any pair of kernels. */
  method CalculateGradientAt(img: GrayImage, kx: Kernel, ky: Kernel, x: uint32, y: uint32)
    returns (v: uint32)
    requires img.Valid() && x < img.width && y < img.height
    ensures v == GradientAt(img, kx, ky, x, y)
  {
    var magnitudeX, magnitudeY := Magnitudes(img, kx, ky, x, y);
    var n := SquareSum(magnitudeX, magnitudeY);
    v := ISqrt(n);
  }

  /** `sobel_filter_grayscale`: create a zero-filled result, then fill it
      row by row; rows above `y` and the first `x` pixels of row `y` are done. */
  method SobelFilterGrayscale(img: GrayImage) returns (r: GrayImage)
    requires img.Valid()
    ensures r.Valid() && r.width == img.width && r.height == img.height
    ensures forall y, x :: 0 <= y < img.height && 0 <= x < img.width ==> r.matrix[y][x] == SobelAt(img, x, y)
    ensures r == FilterGrayscale(img)
  {
    var result := CreateGrayscaleImage(img.width, img.height);
    var m := result.matrix;
    var y: uint32 := 0;
    while y < img.height
      invariant y <= img.height
      invariant IsGrid(m, img.width, img.height)
      invariant forall i, j :: 0 <= i < y && 0 <= j < img.width ==> m[i][j] == SobelAt(img, j, i)
    {
      var x: uint32 := 0;
      while x < img.width
        invariant x <= img.width
        invariant IsGrid(m, img.width, img.height)
        invariant forall i, j :: 0 <= i < y && 0 <= j < img.width ==> m[i][j] == SobelAt(img, j, i)
        invariant forall j :: 0 <= j < x ==> m[y][j] == SobelAt(img, j, y)
      {
        var v := CalculateGradientAt(img, KernelX, KernelY, x, y);
        m := m[y := m[y][x := v]];
        x := x + 1;
      }
      y := y + 1;
    }
    r := result.(matrix := m);
    var reference := FilterGrayscale(img);
    assert forall i :: 0 <= i < img.height ==> m[i] == reference.matrix[i];
  }

  /** `sobel_filter_rgb`: convert to grayscale, then filter. The input is a
      value and is left as it was. */
  method SobelFilterRgb(img: RgbImage) returns (r: GrayImage)
    requires img.Valid()
    ensures r.Valid() && r.width == img.width && r.height == img.height
    ensures r == FilterGrayscale(RgbToGrayscaleImage(img))
    ensures forall y, x :: 0 <= y < img.height && 0 <= x < img.width ==>
              r.matrix[y][x] == SobelAt(RgbToGrayscaleImage(img), x, y)
  {
    var gray := ConvertRgbToGrayscale(img);
    r := SobelFilterGrayscale(gray);
  }

  // ---------------------------------------------------------------------
  // The kernels.
  // ---------------------------------------------------------------------

  /** Sum of the weights of the first `t` taps. */
  ghost function WeightPrefix(k: Kernel, t: nat): int
    requires t <= 9
  {
    if t == 0 then 0 else WeightPrefix(k, t - 1) + Weight(k, t - 1)
  }

  /** Sum of the positive weights of the first `t` taps. */
  ghost function PositivePrefix(k: Kernel, t: nat): int
    requires t <= 9
  {
    if t == 0 then 0
    else PositivePrefix(k, t - 1) + (if Weight(k, t - 1) > 0 then Weight(k, t - 1) else 0)
  }

  /** Sum of the magnitudes of the negative weights of the first `t` taps. */
  ghost function NegativePrefix(k: Kernel, t: nat): int
    requires t <= 9
  {
    if t == 0 then 0
    else NegativePrefix(k, t - 1) + (if Weight(k, t - 1) < 0 then -Weight(k, t - 1) else 0)
  }

  /** `sobel_kernel_y` is the transpose of `sobel_kernel_x`. */
  lemma KernelYIsTransposeOfX()
    ensures forall a, b :: 0 <= a < 3 && 0 <= b < 3 ==> Entry(KernelY, a, b) == Entry(KernelX, b, a)
  {
  }

  /** The weights of `KernelX` in tap order. */
  lemma KernelXTaps()
    ensures Weight(KernelX, 0) == -1 && Weight(KernelX, 1) == 0 && Weight(KernelX, 2) == 1
    ensures Weight(KernelX, 3) == -2 && Weight(KernelX, 4) == 0 && Weight(KernelX, 5) == 2
    ensures Weight(KernelX, 6) == -1 && Weight(KernelX, 7) == 0 && Weight(KernelX, 8) == 1
  {
  }

  /** The weights of `KernelY` in tap order. */
  lemma KernelYTaps()
    ensures Weight(KernelY, 0) == -1 && Weight(KernelY, 1) == -2 && Weight(KernelY, 2) == -1
    ensures Weight(KernelY, 3) == 0 && Weight(KernelY, 4) == 0 && Weight(KernelY, 5) == 0
    ensures Weight(KernelY, 6) == 1 && Weight(KernelY, 7) == 2 && Weight(KernelY, 8) == 1
  {
  }

  /** `sobel_kernel_x`'s weights sum to 0; its positive weights sum to 4
      and the magnitudes of its negative weights to 4. */
  lemma KernelXWeights()
    ensures WeightPrefix(KernelX, 9) == 0
    ensures PositivePrefix(KernelX, 9) == 4 && NegativePrefix(KernelX, 9) == 4
  {
    KernelXTaps();
    assert WeightPrefix(KernelX, 3) == 0 && PositivePrefix(KernelX, 3) == 1 && NegativePrefix(KernelX, 3) == 1;
    assert WeightPrefix(KernelX, 6) == 0 && PositivePrefix(KernelX, 6) == 3 && NegativePrefix(KernelX, 6) == 3;
  }

  /** `sobel_kernel_y`'s weights sum to 0; its positive weights sum to 4
      and the magnitudes of its negative weights to 4. */
  lemma KernelYWeights()
    ensures WeightPrefix(KernelY, 9) == 0
    ensures PositivePrefix(KernelY, 9) == 4 && NegativePrefix(KernelY, 9) == 4
  {
    KernelYTaps();
    assert WeightPrefix(KernelY, 3) == -4 && PositivePrefix(KernelY, 3) == 0 && NegativePrefix(KernelY, 3) == 4;
    assert WeightPrefix(KernelY, 6) == -4 && PositivePrefix(KernelY, 6) == 0 && NegativePrefix(KernelY, 6) == 4;
  }

  // ---------------------------------------------------------------------
  // The border policy.
  // ---------------------------------------------------------------------

  /** The image surrounded by a one-pixel frame of zeros: padded pixel
      (i, j) is source pixel (i - 1, j - 1). */
  ghost function ZeroPad(img: GrayImage): (p: seq<seq<int>>)
    requires img.Valid()
    ensures IsGrid(p, img.width + 2, img.height + 2)
  {
    seq(img.height + 2, i requires 0 <= i < img.height + 2 =>
      seq(img.width + 2, j requires 0 <= j < img.width + 2 =>
        if 1 <= i <= img.height && 1 <= j <= img.width then img.matrix[i - 1][j - 1] else 0))
  }

  /** Textbook convolution of the first `t` taps over a grid large enough
      that every tap of the window whose corner is (x, y) exists. */
  ghost function PaddedPrefix(p: seq<seq<int>>, k: Kernel, x: nat, y: nat, t: nat): int
    requires t <= 9
    requires y + 2 < |p| && forall i :: 0 <= i < |p| ==> x + 2 < |p[i]|
  {
    if t == 0 then 0
    else PaddedPrefix(p, k, x, y, t - 1) + p[y + TapRow(t - 1)][x + TapCol(t - 1)] * Weight(k, t - 1)
  }

  /** Skipping the out-of-range taps computes the same sum as convolving
      the zero-padded image, whose window for pixel (x, y) has its corner
      at padded (x, y). */
  lemma {:induction false} SkipEqualsZeroPadding(img: GrayImage, k: Kernel, x: nat, y: nat, t: nat)
    requires img.Valid() && t <= 9
    requires x < img.width && y < img.height
    ensures ExactPrefix(img, k, x, y, t) == PaddedPrefix(ZeroPad(img), k, x, y, t)
  {
    var p := ZeroPad(img);
    forall s | 0 <= s < 9
      ensures Term(img, k, x, y, s) == p[y + TapRow(s)][x + TapCol(s)] * Weight(k, s)
    {
      PaddedTerm(img, k, x, y, s);
    }
    ExactEqualsPadded(img, p, k, x, y, t);
  }

  /** The induction behind `SkipEqualsZeroPadding`, over any grid whose
      window taps contribute the same terms as the image's. */
  lemma {:induction false} ExactEqualsPadded(img: GrayImage, p: seq<seq<int>>, k: Kernel, x: nat, y: nat, t: nat)
    requires img.Valid() && t <= 9
    requires y + 2 < |p| && forall i :: 0 <= i < |p| ==> x + 2 < |p[i]|
    requires forall s :: 0 <= s < 9 ==> Term(img, k, x, y, s) == p[y + TapRow(s)][x + TapCol(s)] * Weight(k, s)
    ensures ExactPrefix(img, k, x, y, t) == PaddedPrefix(p, k, x, y, t)
  {
    if t > 0 {
      ExactEqualsPadded(img, p, k, x, y, t - 1);
      assert Term(img, k, x, y, t - 1) == p[y + TapRow(t - 1)][x + TapCol(t - 1)] * Weight(k, t - 1);
    }
  }

  /** The term a tap contributes is the padded pixel times its weight: a
      skipped tap and a tap on the zero frame both contribute 0. */
  lemma PaddedTerm(img: GrayImage, k: Kernel, x: nat, y: nat, t: nat)
    requires img.Valid() && t < 9 && x < img.width && y < img.height
    ensures Term(img, k, x, y, t) == ZeroPad(img)[y + TapRow(t)][x + TapCol(t)] * Weight(k, t)
  {
    PaddedTap(img, x, y, t);
  }

  /** The padded pixel under tap `t` is the source pixel when the tap is in
      range, and a zero of the frame otherwise. */
  lemma PaddedTap(img: GrayImage, x: nat, y: nat, t: nat)
    requires img.Valid() && t < 9 && x < img.width && y < img.height
    ensures ZeroPad(img)[y + TapRow(t)][x + TapCol(t)] ==
              if TapInBounds(img, x, y, t) then TapPixel(img, x, y, t) else 0
  {
  }

  // ---------------------------------------------------------------------
  // Range and exactness of the arithmetic.
  // ---------------------------------------------------------------------

  /** One weighted intensity lies between `-m` times the weight's negative
      part and `m` times its positive part. */
  lemma TermBounds(p: int, w: int, m: int)
    requires 0 <= p <= m
    ensures w >= 0 ==> 0 <= p * w <= m * w
    ensures w < 0 ==> m * w <= p * w <= 0
  {
    if w >= 0 {
      assert (m - p) * w >= 0;
    } else {
      assert (m - p) * (-w) >= 0;
    }
  }

  /** With intensities in `[0, m]`, the exact sum lies between `-m` times
      the magnitudes of the negative weights and `m` times the positive weights seen so far. */
  lemma {:induction false} ExactPrefixBounds(img: GrayImage, k: Kernel, x: int, y: int, t: nat, m: nat)
    requires img.Valid() && t <= 9
    requires GrayBoundedBy(img, m)
    ensures -(NegativePrefix(k, t) * m) <= ExactPrefix(img, k, x, y, t) <= PositivePrefix(k, t) * m
  {
    if t > 0 {
      ExactPrefixBounds(img, k, x, y, t - 1, m);
      var w := Weight(k, t - 1);
      var pos := if w > 0 then w else 0;
      var neg := if w < 0 then -w else 0;
      var term := Term(img, k, x, y, t - 1);
      if TapInBounds(img, x, y, t - 1) {
        TermBounds(TapPixel(img, x, y, t - 1), w, m);
      }
      StepBounds(ExactPrefix(img, k, x, y, t - 1), term, PositivePrefix(k, t - 1), NegativePrefix(k, t - 1), w, m);
    }
  }

  /** Adding one weighted term extends the running bounds by that weight's
      positive and negative parts. */
  lemma StepBounds(before: int, term: int, pos: int, neg: int, w: int, m: nat)
    requires -(neg * m) <= before <= pos * m
    requires w >= 0 ==> 0 <= term <= m * w
    requires w < 0 ==> m * w <= term <= 0
    ensures -((neg + (if w < 0 then -w else 0)) * m) <= before + term <= (pos + (if w > 0 then w else 0)) * m
  {
    if w > 0 {
      assert (pos + w) * m == pos * m + w * m;
    } else if w < 0 {
      assert (neg - w) * m == neg * m - w * m;
    }
  }

  /** |magnitude| <= 4 * max intensity, for both kernels. */
  lemma MagnitudeBounds(img: GrayImage, x: int, y: int, m: nat)
    requires img.Valid() && GrayBoundedBy(img, m)
    ensures -4 * m <= ExactMagnitude(img, KernelX, x, y) <= 4 * m
    ensures -4 * m <= ExactMagnitude(img, KernelY, x, y) <= 4 * m
  {
    KernelXWeights();
    KernelYWeights();
    ExactPrefixBounds(img, KernelX, x, y, 9, m);
    ExactPrefixBounds(img, KernelY, x, y, 9, m);
  }

  /** When the true sum of squares fits in 32 bits, the `uint` squares and
      their sum computed from the wrapped magnitudes are exact. */
  lemma SquareSumExact(ex: int, ey: int)
    requires ex * ex + ey * ey < MODULUS
    ensures SquareSum(U32(ex), U32(ey)) == ex * ex + ey * ey
  {
    var sx := ex * ex;
    var sy := ey * ey;
    SquareNonNegative(ex);
    SquareNonNegative(ey);
    SquareWrapped(ex);
    SquareWrapped(ey);
    assert U32(U32(ex) * U32(ex)) == sx;
    assert U32(U32(ey) * U32(ey)) == sy;
  }

  /** For any kernels, when the exact magnitudes' squares sum below 2^32 the
      pixel is the truncated Euclidean norm of the exact magnitudes. */
  lemma GradientAtExact(img: GrayImage, kx: Kernel, ky: Kernel, x: int, y: int)
    requires img.Valid()
    requires ExactMagnitude(img, kx, x, y) * ExactMagnitude(img, kx, x, y)
           + ExactMagnitude(img, ky, x, y) * ExactMagnitude(img, ky, x, y) < MODULUS
    ensures GradientAt(img, kx, ky, x, y) ==
              ISqrt(ExactMagnitude(img, kx, x, y) * ExactMagnitude(img, kx, x, y)
                  + ExactMagnitude(img, ky, x, y) * ExactMagnitude(img, ky, x, y))
  {
    WrappedIsExactModulo(img, kx, x, y, 9);
    WrappedIsExactModulo(img, ky, x, y, 9);
    SquareSumExact(ExactMagnitude(img, kx, x, y), ExactMagnitude(img, ky, x, y));
  }

  /** For any kernels and every image, with no bound on the intensities:
      the pixel is the floor root of the true sum of squares of the exact
      magnitudes, reduced modulo 2^32. */
  lemma GradientAtModulo(img: GrayImage, kx: Kernel, ky: Kernel, x: int, y: int)
    requires img.Valid()
    ensures GradientAt(img, kx, ky, x, y) ==
              ISqrt(U32(ExactMagnitude(img, kx, x, y) * ExactMagnitude(img, kx, x, y)
                      + ExactMagnitude(img, ky, x, y) * ExactMagnitude(img, ky, x, y)))
  {
    WrappedMagnitudeIsExactModulo(img, kx, x, y);
    WrappedMagnitudeIsExactModulo(img, ky, x, y);
    SquareSumModulo(ExactMagnitude(img, kx, x, y), ExactMagnitude(img, ky, x, y));
  }

  /** The `uint` sum of squares of two wrapped integers is their true sum of
      squares reduced modulo 2^32. */
  lemma SquareSumModulo(ex: int, ey: int)
    ensures SquareSum(U32(ex), U32(ey)) == U32(ex * ex + ey * ey)
  {
    var sx := ex * ex;
    var sy := ey * ey;
    SquareWrapped(ex);
    SquareWrapped(ey);
    assert SquareSum(U32(ex), U32(ey)) == U32(U32(sx) + U32(sy));
    AddWrapped(sx, sy);
  }

  /** The closed form of every Sobel pixel: `isqrt((mx^2 + my^2) mod 2^32)`
      of the exact in-range kernel sums. */
  lemma SobelAtModulo(img: GrayImage, x: int, y: int)
    requires img.Valid()
    ensures SobelAt(img, x, y) ==
              ISqrt(U32(ExactMagnitude(img, KernelX, x, y) * ExactMagnitude(img, KernelX, x, y)
                      + ExactMagnitude(img, KernelY, x, y) * ExactMagnitude(img, KernelY, x, y)))
  {
    GradientAtModulo(img, KernelX, KernelY, x, y);
  }

  /** The closed form at a pixel whose exact magnitudes are known. */
  lemma SobelAtOfMagnitudes(img: GrayImage, x: int, y: int, ex: int, ey: int)
    requires img.Valid()
    requires ExactMagnitude(img, KernelX, x, y) == ex && ExactMagnitude(img, KernelY, x, y) == ey
    ensures SobelAt(img, x, y) == ISqrt(U32(ex * ex + ey * ey))
  {
    SobelAtModulo(img, x, y);
  }

  /** A square bounded in absolute value by `4 * m` is at most `16 * m * m`. */
  lemma SquareOfBounded(e: int, m: nat)
    requires -4 * m <= e <= 4 * m
    ensures e * e <= 16 * (m * m)
  {
    var abs: nat := if e < 0 then -e else e;
    assert e * e == abs * abs;
    SquareMonotone(abs, 4 * m);
  }

  /** Two values bounded by `4 * m` have squares summing to at most `32 m^2`. */
  lemma SumOfSquaresBound(ex: int, ey: int, m: nat)
    requires -4 * m <= ex <= 4 * m && -4 * m <= ey <= 4 * m
    ensures 0 <= ex * ex + ey * ey <= 32 * (m * m)
  {
    SquareOfBounded(ex, m);
    SquareOfBounded(ey, m);
    SquareNonNegative(ex);
    SquareNonNegative(ey);
  }

  /** For any kernels whose exact magnitudes lie within `4 * m`, with
      `m <= 11585`: the pixel is the truncated norm of the exact
      magnitudes, and its square is at most `32 m^2`. */
  lemma GradientAtWithin(img: GrayImage, kx: Kernel, ky: Kernel, x: int, y: int, m: nat)
    requires img.Valid() && m <= EXACT_LIMIT
    requires -4 * m <= ExactMagnitude(img, kx, x, y) <= 4 * m
    requires -4 * m <= ExactMagnitude(img, ky, x, y) <= 4 * m
    ensures GradientAt(img, kx, ky, x, y) ==
              ISqrt(ExactMagnitude(img, kx, x, y) * ExactMagnitude(img, kx, x, y)
                  + ExactMagnitude(img, ky, x, y) * ExactMagnitude(img, ky, x, y))
    ensures GradientAt(img, kx, ky, x, y) * GradientAt(img, kx, ky, x, y) <= 32 * (m * m)
  {
    var ex := ExactMagnitude(img, kx, x, y);
    var ey := ExactMagnitude(img, ky, x, y);
    SumOfSquaresBound(ex, ey, m);
    SquareMonotone(m, EXACT_LIMIT);
    GradientAtExact(img, kx, ky, x, y);
  }

  /** With every intensity at most 11585 the true sum of squares fits in a
      `uint`, so the wrapped `uint` sum equals it, and the pixel is
      `isqrt(mx^2 + my^2)` of the exact kernel sums over the in-range
      neighbours: truncated, and not clamped to the scale. */
  lemma SobelAtExact(img: GrayImage, x: int, y: int)
    requires img.Valid() && GrayBoundedBy(img, EXACT_LIMIT)
    ensures SobelAt(img, x, y) ==
              ISqrt(ExactMagnitude(img, KernelX, x, y) * ExactMagnitude(img, KernelX, x, y)
                  + ExactMagnitude(img, KernelY, x, y) * ExactMagnitude(img, KernelY, x, y))
  {
    MagnitudeBounds(img, x, y, EXACT_LIMIT);
    GradientAtWithin(img, KernelX, KernelY, x, y, EXACT_LIMIT);
  }

  /** Every pixel of the filtered image is the truncated norm of the exact
      magnitudes when no intensity exceeds 11585. */
  lemma FilterGrayscaleExact(img: GrayImage)
    requires img.Valid() && GrayBoundedBy(img, EXACT_LIMIT)
    ensures forall y, x :: 0 <= y < img.height && 0 <= x < img.width ==>
              FilterGrayscale(img).matrix[y][x] ==
                ISqrt(ExactMagnitude(img, KernelX, x, y) * ExactMagnitude(img, KernelX, x, y)
                    + ExactMagnitude(img, KernelY, x, y) * ExactMagnitude(img, KernelY, x, y))
  {
    KernelXTaps();
    KernelYTaps();
    forall y, x | 0 <= y < img.height && 0 <= x < img.width {
      SobelAtExact(img, x, y);
    }
  }

  /** With intensities at most `m`, the square of every pixel is at most
      `32 m^2`, that is the pixel is at most `sqrt(32) * m`, about `5.66 m`.
      Above 11585 the exactness argument no longer applies, but then
      `32 m^2` exceeds every `uint`, so the bound still holds. */
  lemma SobelAtBounded(img: GrayImage, x: int, y: int, m: nat)
    requires img.Valid() && GrayBoundedBy(img, m)
    ensures SobelAt(img, x, y) * SobelAt(img, x, y) <= 32 * (m * m)
  {
    if m <= EXACT_LIMIT {
      MagnitudeBounds(img, x, y, m);
      GradientAtWithin(img, KernelX, KernelY, x, y, m);
    } else {
      SobelAtModulo(img, x, y);
      WrappedRootBound(SobelAt(img, x, y), ExactMagnitude(img, KernelX, x, y),
                       ExactMagnitude(img, KernelY, x, y), m);
    }
  }

  /** The same bound as a root: every pixel is at most `isqrt(32 m^2)`. */
  lemma SobelAtRootBound(img: GrayImage, x: int, y: int, m: nat)
    requires img.Valid() && GrayBoundedBy(img, m)
    ensures SobelAt(img, x, y) <= ISqrt(32 * (m * m))
  {
    SobelAtBounded(img, x, y, m);
    RootOfSquareBound(SobelAt(img, x, y), m);
  }

  /** A value whose square is at most `32 m^2` is at most `isqrt(32 m^2)`. */
  lemma RootOfSquareBound(v: nat, m: nat)
    requires v * v <= 32 * (m * m)
    ensures v <= ISqrt(32 * (m * m))
  {
    ISqrtGreatest(32 * (m * m), v);
  }

  /** The root of any wrapped sum of squares meets the bound once `m` is
      above the exact limit. */
  lemma WrappedRootBound(v: int, ex: int, ey: int, m: nat)
    requires v == ISqrt(U32(ex * ex + ey * ey)) && m > EXACT_LIMIT
    ensures v * v <= 32 * (m * m)
  {
    WideBound(U32(ex * ex + ey * ey), m);
  }

  /** Once `m > 11585`, `32 m^2` exceeds every `uint`, and so the square
      of the root of any `uint`. */
  lemma WideBound(n: nat, m: nat)
    requires n < MODULUS && m > EXACT_LIMIT
    ensures ISqrt(n) * ISqrt(n) <= 32 * (m * m)
  {
    var r := ISqrt(n);
    SquareMonotone(EXACT_LIMIT + 1, m);
    var lo := (EXACT_LIMIT + 1) * (EXACT_LIMIT + 1);
    assert lo == 134235396;
    assert r * r <= n < MODULUS <= 32 * lo <= 32 * (m * m);
  }


  // ---------------------------------------------------------------------
  // Uniform images.
  // ---------------------------------------------------------------------

  /** Every intensity of `img` equals `c`. */
  ghost predicate Uniform(img: GrayImage, c: uint32)
    requires img.Valid()
  {
    forall y, x :: 0 <= y < img.height && 0 <= x < img.width ==> img.matrix[y][x] == c
  }

  /** Sum of the weights of those of the first `t` taps that are in range. */
  ghost function InRangeWeightPrefix(img: GrayImage, k: Kernel, x: int, y: int, t: nat): int
    requires t <= 9
  {
    if t == 0 then 0
    else InRangeWeightPrefix(img, k, x, y, t - 1) + (if TapInBounds(img, x, y, t - 1) then Weight(k, t - 1) else 0)
  }

  /** On a uniform image the exact sum is the intensity times the weight of
      the in-range taps. */
  lemma {:induction false} UniformPrefix(img: GrayImage, c: uint32, k: Kernel, x: int, y: int, t: nat)
    requires img.Valid() && t <= 9 && Uniform(img, c)
    ensures ExactPrefix(img, k, x, y, t) == c * InRangeWeightPrefix(img, k, x, y, t)
  {
    if t > 0 {
      UniformPrefix(img, c, k, x, y, t - 1);
      UniformTerm(img, c, k, x, y, t - 1);
      var w := if TapInBounds(img, x, y, t - 1) then Weight(k, t - 1) else 0;
      ScaledStep(c, ExactPrefix(img, k, x, y, t - 1), InRangeWeightPrefix(img, k, x, y, t - 1), w);
    }
  }

  /** On a uniform image a tap contributes the intensity times its weight
      when it is in range, and nothing otherwise. */
  lemma UniformTerm(img: GrayImage, c: uint32, k: Kernel, x: int, y: int, t: nat)
    requires img.Valid() && t < 9 && Uniform(img, c)
    ensures Term(img, k, x, y, t) == c * (if TapInBounds(img, x, y, t) then Weight(k, t) else 0)
  {
    if TapInBounds(img, x, y, t) {
      assert TapPixel(img, x, y, t) == c;
    }
  }

  /** Adding `c * w` to `c * i` gives `c * (i + w)`. */
  lemma ScaledStep(c: int, e: int, i: int, w: int)
    requires e == c * i
    ensures e + c * w == c * (i + w)
  {
  }

  /** Around an interior pixel every tap is in range. */
  lemma {:induction false} InteriorWeights(img: GrayImage, k: Kernel, x: int, y: int, t: nat)
    requires t <= 9
    requires 1 <= x < img.width - 1 && 1 <= y < img.height - 1
    ensures InRangeWeightPrefix(img, k, x, y, t) == WeightPrefix(k, t)
  {
    if t > 0 {
      InteriorWeights(img, k, x, y, t - 1);
    }
  }

  /** On a uniform image, a kernel whose weights sum to 0 gives the exact
      magnitude 0 at every interior pixel. */
  lemma UniformInteriorMagnitude(img: GrayImage, c: uint32, k: Kernel, x: int, y: int)
    requires img.Valid() && Uniform(img, c)
    requires 1 <= x < img.width - 1 && 1 <= y < img.height - 1
    requires WeightPrefix(k, 9) == 0
    ensures ExactMagnitude(img, k, x, y) == 0
  {
    UniformPrefix(img, c, k, x, y, 9);
    InteriorWeights(img, k, x, y, 9);
  }

  /** A uniform image has gradient 0 at every interior pixel, because each
      kernel's weights sum to 0. */
  lemma UniformInteriorIsZero(img: GrayImage, c: uint32, x: int, y: int)
    requires img.Valid() && Uniform(img, c)
    requires 1 <= x < img.width - 1 && 1 <= y < img.height - 1
    ensures SobelAt(img, x, y) == 0
  {
    KernelXWeights();
    KernelYWeights();
    UniformInteriorMagnitude(img, c, KernelX, x, y);
    UniformInteriorMagnitude(img, c, KernelY, x, y);
    GradientAtExact(img, KernelX, KernelY, x, y);
    ISqrtOfSquare(0);
  }

  /** At x = 0 of an interior row of an image at least 2 wide the left
      kernel column is skipped and nothing else: of `KernelX` only the right
      column `1, 2, 1` is in range, of `KernelY` the columns that remain
      still cancel. */
  lemma LeftBorderWeights(img: GrayImage, y: int)
    requires 2 <= img.width && 1 <= y < img.height - 1
    ensures InRangeWeightPrefix(img, KernelX, 0, y, 9) == 4
    ensures InRangeWeightPrefix(img, KernelY, 0, y, 9) == 0
  {
    KernelXTaps();
    KernelYTaps();
    assert !TapInBounds(img, 0, y, 0) && TapInBounds(img, 0, y, 1) && TapInBounds(img, 0, y, 2);
    assert !TapInBounds(img, 0, y, 3) && TapInBounds(img, 0, y, 4) && TapInBounds(img, 0, y, 5);
    assert !TapInBounds(img, 0, y, 6) && TapInBounds(img, 0, y, 7) && TapInBounds(img, 0, y, 8);
    assert InRangeWeightPrefix(img, KernelX, 0, y, 1) == 0 && InRangeWeightPrefix(img, KernelY, 0, y, 1) == 0;
    assert InRangeWeightPrefix(img, KernelX, 0, y, 2) == 0 && InRangeWeightPrefix(img, KernelY, 0, y, 2) == -2;
    assert InRangeWeightPrefix(img, KernelX, 0, y, 3) == 1 && InRangeWeightPrefix(img, KernelY, 0, y, 3) == -3;
    assert InRangeWeightPrefix(img, KernelX, 0, y, 4) == 1 && InRangeWeightPrefix(img, KernelY, 0, y, 4) == -3;
    assert InRangeWeightPrefix(img, KernelX, 0, y, 5) == 1 && InRangeWeightPrefix(img, KernelY, 0, y, 5) == -3;
    assert InRangeWeightPrefix(img, KernelX, 0, y, 6) == 3 && InRangeWeightPrefix(img, KernelY, 0, y, 6) == -3;
    assert InRangeWeightPrefix(img, KernelX, 0, y, 7) == 3 && InRangeWeightPrefix(img, KernelY, 0, y, 7) == -3;
    assert InRangeWeightPrefix(img, KernelX, 0, y, 8) == 3 && InRangeWeightPrefix(img, KernelY, 0, y, 8) == -1;
    assert InRangeWeightPrefix(img, KernelX, 0, y, 9) == 4 && InRangeWeightPrefix(img, KernelY, 0, y, 9) == 0;
  }

  /** At the top-left corner of an image at least 2 by 2 a kernel row and a
      kernel column are skipped: the in-range weights of both kernels sum
      to 3, so a uniform image has both magnitudes `3 * c` there. */
  lemma CornerWeights(img: GrayImage)
    requires 2 <= img.width && 2 <= img.height
    ensures InRangeWeightPrefix(img, KernelX, 0, 0, 9) == 3
    ensures InRangeWeightPrefix(img, KernelY, 0, 0, 9) == 3
  {
    KernelXTaps();
    KernelYTaps();
    assert !TapInBounds(img, 0, 0, 0) && !TapInBounds(img, 0, 0, 1) && !TapInBounds(img, 0, 0, 2);
    assert !TapInBounds(img, 0, 0, 3) && TapInBounds(img, 0, 0, 4) && TapInBounds(img, 0, 0, 5);
    assert !TapInBounds(img, 0, 0, 6) && TapInBounds(img, 0, 0, 7) && TapInBounds(img, 0, 0, 8);
    assert InRangeWeightPrefix(img, KernelX, 0, 0, 1) == 0 && InRangeWeightPrefix(img, KernelY, 0, 0, 1) == 0;
    assert InRangeWeightPrefix(img, KernelX, 0, 0, 2) == 0 && InRangeWeightPrefix(img, KernelY, 0, 0, 2) == 0;
    assert InRangeWeightPrefix(img, KernelX, 0, 0, 3) == 0 && InRangeWeightPrefix(img, KernelY, 0, 0, 3) == 0;
    assert InRangeWeightPrefix(img, KernelX, 0, 0, 4) == 0 && InRangeWeightPrefix(img, KernelY, 0, 0, 4) == 0;
    assert InRangeWeightPrefix(img, KernelX, 0, 0, 5) == 0 && InRangeWeightPrefix(img, KernelY, 0, 0, 5) == 0;
    assert InRangeWeightPrefix(img, KernelX, 0, 0, 6) == 2 && InRangeWeightPrefix(img, KernelY, 0, 0, 6) == 0;
    assert InRangeWeightPrefix(img, KernelX, 0, 0, 7) == 2 && InRangeWeightPrefix(img, KernelY, 0, 0, 7) == 0;
    assert InRangeWeightPrefix(img, KernelX, 0, 0, 8) == 2 && InRangeWeightPrefix(img, KernelY, 0, 0, 8) == 2;
    assert InRangeWeightPrefix(img, KernelX, 0, 0, 9) == 3 && InRangeWeightPrefix(img, KernelY, 0, 0, 9) == 3;
  }

  /** On a uniform image at least 2 by 2 both exact magnitudes at the
      top-left corner are `3 * c`. */
  lemma UniformCornerMagnitudes(img: GrayImage, c: uint32)
    requires img.Valid() && Uniform(img, c)
    requires 2 <= img.width && 2 <= img.height
    ensures ExactMagnitude(img, KernelX, 0, 0) == 3 * c
    ensures ExactMagnitude(img, KernelY, 0, 0) == 3 * c
  {
    CornerWeights(img);
    UniformPrefix(img, c, KernelX, 0, 0, 9);
    UniformPrefix(img, c, KernelY, 0, 0, 9);
  }

  /** A uniform image is NOT zero at the left-border pixel of an interior
      row, when the image is at least 2 wide: there the gradient is `4 * c`
      (for `4 * c < 2^16`), which exceeds `c` (and so any scale equal to `c`)
      when `c > 0`. Only interior pixels are guaranteed 0, and the output is
      not clamped. At a corner a kernel row is skipped as well. */
  lemma UniformLeftBorder(img: GrayImage, c: uint32, y: int)
    requires img.Valid() && Uniform(img, c)
    requires 2 <= img.width && 1 <= y < img.height - 1
    requires 4 * c < 0x1_0000
    ensures SobelAt(img, 0, y) == 4 * c
  {
    LeftBorderWeights(img, y);
    UniformPrefix(img, c, KernelX, 0, y, 9);
    UniformPrefix(img, c, KernelY, 0, y, 9);
    GradientOfAxisMagnitude(img, KernelX, KernelY, 0, y, 4 * c);
  }

  /** For any kernels, a pixel whose `x` magnitude is `v < 2^16` and whose
      `y` magnitude is 0 has gradient exactly `v`. */
  lemma GradientOfAxisMagnitude(img: GrayImage, kx: Kernel, ky: Kernel, x: int, y: int, v: nat)
    requires img.Valid() && v < 0x1_0000
    requires ExactMagnitude(img, kx, x, y) == v && ExactMagnitude(img, ky, x, y) == 0
    ensures GradientAt(img, kx, ky, x, y) == v
  {
    SquareMonotone(v, 0xFFFF);
    GradientAtExact(img, kx, ky, x, y);
    ISqrtOfSquare(v);
  }

  // ---------------------------------------------------------------------
  // Locality.
  // ---------------------------------------------------------------------

  /** Two images of the same shape that agree on the 3x3 neighbourhood of
      (x, y) that lies inside them. */
  ghost predicate AgreeAround(img1: GrayImage, img2: GrayImage, x: int, y: int)
    requires img1.Valid() && img2.Valid()
  {
    && img1.width == img2.width && img1.height == img2.height
    && forall j, i :: 0 <= j < img1.height && 0 <= i < img1.width && y - 1 <= j <= y + 1 && x - 1 <= i <= x + 1 ==>
         img1.matrix[j][i] == img2.matrix[j][i]
  }

  lemma {:induction false} WrappedPrefixLocal(img1: GrayImage, img2: GrayImage, k: Kernel, x: int, y: int, t: nat)
    requires img1.Valid() && img2.Valid() && t <= 9
    requires AgreeAround(img1, img2, x, y)
    ensures WrappedPrefix(img1, k, x, y, t) == WrappedPrefix(img2, k, x, y, t)
  {
    if t > 0 {
      WrappedPrefixLocal(img1, img2, k, x, y, t - 1);
      if TapInBounds(img1, x, y, t - 1) {
        assert TapPixel(img1, x, y, t - 1) == TapPixel(img2, x, y, t - 1);
      }
    }
  }

  /** The output at (x, y) depends only on source pixels at most one row
      and one column away from (x, y). */
  lemma Locality(img1: GrayImage, img2: GrayImage, x: int, y: int)
    requires img1.Valid() && img2.Valid()
    requires AgreeAround(img1, img2, x, y)
    ensures SobelAt(img1, x, y) == SobelAt(img2, x, y)
  {
    KernelXTaps();
    KernelYTaps();
    WrappedPrefixLocal(img1, img2, KernelX, x, y, 9);
    WrappedPrefixLocal(img1, img2, KernelY, x, y, 9);
  }

  // ---------------------------------------------------------------------
  // Beyond the exact range.
  // ---------------------------------------------------------------------

  /** On the 1x2 image `0 65535`, only the centre and right taps around
      (0, 0) are in range, so any kernel's exact magnitude there is 65535
      times its centre-right weight. */
  lemma PairMagnitude(img: GrayImage, k: Kernel)
    requires img.width == 2 && img.height == 1 && img.matrix == [[0, 65535]]
    ensures img.Valid()
    ensures ExactMagnitude(img, k, 0, 0) == 65535 * Weight(k, 5)
  {
    assert img.Valid();
    assert !TapInBounds(img, 0, 0, 0) && !TapInBounds(img, 0, 0, 1) && !TapInBounds(img, 0, 0, 2);
    assert !TapInBounds(img, 0, 0, 3) && TapInBounds(img, 0, 0, 4) && TapInBounds(img, 0, 0, 5);
    assert !TapInBounds(img, 0, 0, 6) && !TapInBounds(img, 0, 0, 7) && !TapInBounds(img, 0, 0, 8);
    assert TapPixel(img, 0, 0, 4) == 0 && TapPixel(img, 0, 0, 5) == 65535;
    assert ExactPrefix(img, k, 0, 0, 1) == 0;
    assert ExactPrefix(img, k, 0, 0, 2) == 0;
    assert ExactPrefix(img, k, 0, 0, 3) == 0;
    assert ExactPrefix(img, k, 0, 0, 4) == 0;
    assert ExactPrefix(img, k, 0, 0, 5) == 0;
    assert ExactPrefix(img, k, 0, 0, 6) == 65535 * Weight(k, 5);
    assert ExactPrefix(img, k, 0, 0, 7) == 65535 * Weight(k, 5);
    assert ExactPrefix(img, k, 0, 0, 8) == 65535 * Weight(k, 5);
  }

  /** For large intensities the `uint` arithmetic loses the true magnitude: for the
      1x2 image `0 65535` (a legal 16-bit graymap) the exact horizontal
      magnitude at (0, 0) is 131070, but its square wraps and the stored
      value is 65531. */
  lemma WrapAboveExactLimit(img: GrayImage)
    requires img.width == 2 && img.height == 1 && img.matrix == [[0, 65535]]
    ensures img.Valid()
    ensures ExactMagnitude(img, KernelX, 0, 0) == 131070
    ensures ExactMagnitude(img, KernelY, 0, 0) == 0
    ensures SobelAt(img, 0, 0) == 65531
  {
    KernelXTaps();
    KernelYTaps();
    PairMagnitude(img, KernelX);
    PairMagnitude(img, KernelY);
    var ex := ExactMagnitude(img, KernelX, 0, 0);
    var ey := ExactMagnitude(img, KernelY, 0, 0);
    SobelAtOfMagnitudes(img, 0, 0, ex, ey);
    WrappedRootOfPair(ex, ey);
  }

  /** The pixel of the 1x2 example: `131070^2` wraps to 4294443012, whose
      floor root is 65531. */
  lemma WrappedRootOfPair(ex: int, ey: int)
    requires ex == 131070 && ey == 0
    ensures ISqrt(U32(ex * ex + ey * ey)) == 65531
  {
    var n := U32(ex * ex + ey * ey);
    assert ex * ex + ey * ey == 3 * MODULUS + 4294443012;
    assert n == 4294443012;
    ISqrtUnique(n, 65531);
  }
}

=== FILE: uint32.dfy ===
/** Unsigned 32-bit arithmetic as C performs it on `uint` (`unsigned int`):
    every conversion to, and every result of, an unsigned operation is
    reduced modulo 2^32. Dafny's `%` is Euclidean, so `x % MODULUS` is the
    non-negative representative that C's unsigned conversion produces. */
module UInt32 {

  const MODULUS: int := 0x1_0000_0000

  type uint32 = x: int | 0 <= x < 0x1_0000_0000

  /** The value C obtains when it converts the mathematical integer `x`
      to `unsigned int` (or when an unsigned operation wraps around). */
  function U32(x: int): (r: uint32)
    ensures 0 <= x < MODULUS ==> r == x
    ensures 0 <= x ==> r <= x
  {
    x % MODULUS
  }

  /** The wrapped value differs from the original by a multiple of 2^32. */
  lemma WrapQuotient(x: int) returns (k: int)
    ensures x == U32(x) + k * MODULUS
  {
    k := x / MODULUS;
  }

  /** Adding a multiple of 2^32 does not change the wrapped value. */
  lemma ShiftInvariant(x: int, k: int)
    ensures U32(x + k * MODULUS) == U32(x)
  {
  }

  /** Wrapping an operand of an addition before adding changes nothing. */
  lemma AddWrapped(a: int, b: int)
    ensures U32(U32(a) + U32(b)) == U32(a + b)
  {
    var ka := WrapQuotient(a);
    var kb := WrapQuotient(b);
    ShiftInvariant(U32(a) + U32(b), ka + kb);
    assert a + b == U32(a) + U32(b) + (ka + kb) * MODULUS;
  }

  /** Wrapping an operand of a multiplication before multiplying changes nothing. */
  lemma MulWrapped(a: int, b: int)
    ensures U32(a * U32(b)) == U32(a * b)
  {
    var kb := WrapQuotient(b);
    assert a * b == a * U32(b) + (a * kb) * MODULUS;
    ShiftInvariant(a * U32(b), a * kb);
  }

  /** Squaring a wrapped value yields the true square modulo 2^32. */
  lemma SquareWrapped(a: int)
    ensures U32(U32(a) * U32(a)) == U32(a * a)
  {
    MulWrapped(U32(a), a);
    MulWrapped(a, a);
    assert U32(a) * a == a * U32(a);
  }
}
